=== FILE: README.md ===
# rachio-notifier, modelled in Dafny

rachio-notifier is a periodic script for a Rachio sprinkler controller.
On each invocation it does five things:

- loads the previously seen next run and a "reminder sent" flag from a small JSON state file;
- asks the controller for its state and its next scheduled run;
- converts that run from UTC to local time;
- sends a change notice when the run changed, and a reminder when the local hour is 18..22 (18:00–22:59), the run is tomorrow and the file does not already record a reminder;
- rewrites the state file on every invocation where the controller is idle with a run scheduled, whether or not anything was sent, unless `time_magic` raises.

This project models the core of that script in `rachio_notifier.py`:

- `main`, the decision engine (`Engine.Decide`, `Engine.Main`);
- `time_magic`, the schedule evaluator (`Schedule.TimeMagic`);
- `load_persistent_data` / `write_persistent_data`, the record store (`Store.Load`, `Store.Save`).

It proves properties of the model: round trips, exact notification
conditions, the idempotence of a re-run, and a bound on the notifications
sent over any series of polls of an idle controller reporting the same run.

Layout, one module per file:

- `wrappers.dfy`: `Option` and `Result`.
- `calendar.dfy`: the proleptic Gregorian calendar that Python's `datetime` uses.
  - Leap years and month lengths.
  - `NextDay` / `PrevDay`.
  - A day count from 0001-01-01.
  - The weekday.
  - The range of years 1..9999 that `datetime` admits.
- `decimal.dfy`: the unpadded (`%-H`, `%-m`, `%-d`) and zero-padded (`%M`, and the fixed-width fields of the timestamp layout) renderings of numbers, with the digit reader that undoes them.
- `timestamp.dfy`: the `%Y-%m-%dT%H:%M:%SZ` timestamps the controller reports, with a parser and a formatter.
- `schedule.dfy`: `time_magic`.
  - The local zone is a fixed offset in minutes.
  - The current local time `now` is a parameter.
- `store.dfy`: the state file.
  - It is an optional map from keys to JSON values.
  - Values are null, booleans, strings or numbers, with Python truthiness.
- `engine.dfy`: `main`.
  - An invocation is a value: the notifications sent, the log lines, the record written, and how it ended (exit, return, or an exception escaping `time_magic`).
  - `time_magic` is passed in as a function value, so the real evaluator (`Run`) and the fixed evaluation the repository's tests substitute both fit.
- `engine_properties.dfy`: properties of whole invocations and of series of invocations sharing one state file.
- `app_examples.dfy`: the repository's tests restated against the model, and worked examples of the code's quirks.

Several behaviours of the code are easy to misread from its comments and messages. The model follows the code in each case:

- The weekday in the change notice is the weekday of the **UTC** date. `strftime("%A")` is applied before the conversion to local time (`rachio_notifier.py:133`). So a run late enough in the local day that UTC has already passed midnight (from 19:00 in Chicago in summer) is named after the following day. `AppExamples.WeekdayIsTakenBeforeConversion` shows a run on Thursday evening in Chicago announced as "Friday".
- The run's time is printed with `%-H:%M%p`: a 24-hour hour followed by AM/PM. An evening run therefore reads `19:00PM`, not `7:00PM` (`rachio_notifier.py:148`; `Schedule.ClockString`).
- The reminder test reads the flag loaded from the file, not the flag the change branch has just set. A change to a run tomorrow inside the 18–22 window, with a falsy flag in the file, therefore sends both the change notice and the reminder (`rachio_notifier.py:185-206`; `EngineProperties.ChangeToTomorrowSendsBoth`).
- "Tomorrow" compares only the `m/d` strings. A run a year and a day away counts as tomorrow (`rachio_notifier.py:149-153`; `AppExamples.YearIsNotCompared`).
- The flag is written back unchanged only when neither branch assigned it. This is the `NameError` fallback at `rachio_notifier.py:209-212`, which does what its comment says. `Engine.IdleStep` spells it out with an explicit `Binding` value, and `Engine.NewReminder` states the resulting rule.

## Model

| member | source | states |
|---|---|---|
| Calendar.NextDay | rachio_notifier.py:150 | `+ timedelta(1)` on the date: the result is a real calendar day in the same year, or 1 January of the next; it is the 1st of a month exactly when the given day is its month's last |
| Calendar.NextDayNumber | rachio_notifier.py:150 | `timedelta(1)` steps to the calendar day whose day count is one more, across month and year ends and leap days |
| Calendar.PrevDayNumber | rachio_notifier.py:141 | stepping back a day (the move west of UTC over midnight) lowers the day count by exactly one |
| Calendar.PrevOfNext | rachio_notifier.py:141-150 | going back a day undoes going forward a day |
| Calendar.NextOfPrev | rachio_notifier.py:141-150 | going forward a day undoes going back a day |
| Calendar.NextDayWeekday | rachio_notifier.py:133 | the weekday `%A` names advances by one on the next day, Sunday wrapping to Monday |
| Calendar.EpochIsMonday | rachio_notifier.py:133 | 0001-01-01 is a Monday, as in Python's calendar, which anchors every weekday name |
| Calendar.WeekdayName | rachio_notifier.py:133 | `%A` prints one of the seven C-locale day names, and the name printed determines the weekday index (0 = Monday) and vice versa |
| Calendar.DaysBeforeNextYear | rachio_notifier.py:150 | a year is 366 days long exactly when it is a Gregorian leap year, so day counts agree with year lengths |
| Calendar.MonthsFillYear | rachio_notifier.py:150 | the twelve month lengths add up to the year's length |
| Decimal.UnpaddedValue | rachio_notifier.py:148-150 | reading back a `%-H` / `%-m` / `%-d` rendering gives the number printed |
| Decimal.PaddedValue | rachio_notifier.py:131-132 | reading back a zero-padded field gives the number, whenever it fits the width |
| Decimal.PaddedOfValue | rachio_notifier.py:131-132 | every digit string of a given width is the padded rendering of its value |
| Decimal.UnpaddedInjective | rachio_notifier.py:149-153 | two different numbers never print alike unpadded |
| Decimal.SplitAtSeparator | rachio_notifier.py:149-153 | two `digits/digits` strings are equal exactly when both parts are |
| Timestamp.Parse | rachio_notifier.py:131-132 | an accepted timestamp has the fixed layout and denotes a date-time `datetime` can hold |
| Timestamp.ParseFormat | rachio_notifier.py:131-132 | parsing the canonical rendering of any representable date-time gives it back |
| Timestamp.FormatParse | rachio_notifier.py:131-132 | every string the parser accepts is already the canonical rendering of what it denotes |
| Schedule.ToLocal | rachio_notifier.py:141 | `astimezone` gives a valid clock reading with the same seconds, on the UTC date, the day after or the day before |
| Schedule.ToLocalSeconds | rachio_notifier.py:135-141 | the local reading is the same instant: its clock reads exactly `offset` minutes after the UTC one, across day, month and year boundaries |
| Schedule.ClockString | rachio_notifier.py:148 | `%-H:%M%p` ends in `AM` before noon and `PM` from noon; before the `:` are digits reading back as the 24-hour hour, after it two digits reading back as the minute |
| Schedule.MonthDayString | rachio_notifier.py:149-150 | `%-m/%-d` is digits, one `/`, digits, the two parts reading back as the month and the day; no year appears |
| Schedule.MonthDayStringsEqual | rachio_notifier.py:149-153 | two dates print the same `%-m/%-d` exactly when month and day agree, whatever the years |
| Schedule.TimeMagic | rachio_notifier.py:128-155 | `ValueError` exactly when the timestamp does not parse; `OverflowError` exactly when the local date or tomorrow leaves years 1..9999; otherwise the current hour, the UTC weekday, the local `%-H:%M%p` and `%-m/%-d`, and "tomorrow" exactly when the local run's month and day are those of the day after today |
| Store.Load | rachio_notifier.py:54-72 | no file means bootstrap; otherwise each key missing from the file is logged, and a key is logged exactly when it is absent |
| Store.Save | rachio_notifier.py:81-86 | the file is overwritten with exactly the keys `next_run` and `reminder` |
| Store.LoadSave | rachio_notifier.py:54-86 | loading what was written returns the same pair and logs nothing |
| Store.LoadMissingKeys | rachio_notifier.py:59-69 | a missing key loads as `None`; a present key loads as stored |
| Engine.ChangeNotice | rachio_notifier.py:172-183 | the change notice opens with the title line "Irrigation Schedule Changed" and "Next Run: ", and closes with "Tomorrow at T" for a run tomorrow, otherwise "Day m/d at T" |
| Engine.ReminderNotice | rachio_notifier.py:202-205 | the reminder opens with the title line "Reminder" and closes with the run's local time |
| Engine.ReminderNamesOnlyTime | rachio_notifier.py:202-205 | two reminders are the same message exactly when they name the same time; weekday and date play no part |
| Engine.NewReminder | rachio_notifier.py:185-212 | the flag written back is `True` whenever a reminder goes out, a real boolean after any change, unchanged for an unchanged run already reminded, and never lets the same evaluation remind again |
| Engine.NoticesDiffer | rachio_notifier.py:177-205 | a change notice can never be mistaken for a reminder |
| Engine.IdleStep | rachio_notifier.py:172-214 | for an idle controller, one change notice exactly when the run differs from the stored one, one reminder exactly when the hour is 18..22, the run is tomorrow and the stored flag is falsy, change first, nothing else sent, and the run and the new flag written |
| Engine.Decide | rachio_notifier.py:161-221 | at most two notices; a record is written exactly when the controller is idle, a run is scheduled and `time_magic` succeeds; anything sent implies a write; not idle means nothing sent or written, exiting exactly for WATERING and STANDBY |
| Engine.Main | rachio_notifier.py:54-79 | with no state file, nothing is sent and the fetched run is written with the flag `False` before exiting |
| Engine.Run | rachio_notifier.py:157-221 | one invocation with the real evaluator sends at most two notifications |
| EngineProperties.NonIdleShortCircuit | rachio_notifier.py:164-170 | with a state file, a controller that is not idle, or is idle with nothing scheduled, gets no notification and leaves the file untouched; it exits for IDLE, WATERING and STANDBY and returns otherwise |
| EngineProperties.Bootstrap | rachio_notifier.py:73-79 | a missing file is created with the fetched run and `False`, which loads back cleanly, whatever the controller reports |
| EngineProperties.IdleStepCounts | rachio_notifier.py:172-206 | counted by title: change notices are 1 exactly on a change, reminders are 1 exactly when due, nothing else is sent, the change comes first and the reminder last |
| EngineProperties.RunChangeNotice | rachio_notifier.py:172-183 | the change notice goes out exactly when `time_magic` succeeds on a changed run, and its text matches a definition built directly from the calendar: "Tomorrow at T" or "Day m/d at T" |
| EngineProperties.RunReminder | rachio_notifier.py:196-206 | the reminder goes out exactly when `time_magic` succeeds, the local hour is 18..22 inclusive, the local run date is tomorrow's month and day, and the stored flag is falsy; it is the last notice and names the local time |
| EngineProperties.ChangeToTomorrowSendsBoth | rachio_notifier.py:185-206 | a change to a run tomorrow inside the window with no reminder stored sends both notices and writes the flag `True` |
| EngineProperties.RemindedIsQuiet | rachio_notifier.py:196-214 | once the stored run is current and its reminder is marked, nothing is sent and the same record is written |
| EngineProperties.RerunIsQuiet | rachio_notifier.py:157-214 | when `time_magic` succeeds, an idle invocation writes a record, and re-running at the same moment on that record sends nothing and writes the same record |
| EngineProperties.StepBound | rachio_notifier.py:172-214 | one invocation never un-marks a reminded run, sends at most one notice on a settled file, sends at most one reminder, and marks the run reminded whenever it sends one |
| EngineProperties.SeriesBound | rachio_notifier.py:157-221 | over any number of polls of an idle controller with a fixed run, at most two notifications in all and at most one reminder; none once the run is reminded, at most one once it is stored |
| AppExamples.WriteAndLoad | tests/test_app.py:13-17 | writing ("2025-10-05T12:00:00Z", True) and loading it back gives that pair |
| AppExamples.TimeMagicTomorrow | tests/test_app.py:60-77 | at 18:00 on 1 October in Chicago, a run at 2025-10-02T12:00:00Z is 7:00AM on 10/2, a Thursday, and is tomorrow |
| AppExamples.WeekdayIsTakenBeforeConversion | rachio_notifier.py:133 | a run at 2025-10-03T02:00:00Z, 21:00 on Thursday 2 October in Chicago, is announced as "Friday" at "21:00PM" |
| AppExamples.YearIsNotCompared | rachio_notifier.py:149-153 | a run a year and a day away counts as tomorrow |
| AppExamples.YearEndRollback | rachio_notifier.py:141-153 | a run at 2026-01-01T03:00:00Z is 21:00 on 31 December in Chicago (standard time, UTC−6) and counts as tomorrow on 30 December |
| AppExamples.MainIdleUpdates | tests/test_app.py:79-96 | stored run changed and tomorrow at 19:00: the change is logged first, both notices go out, and the new run is written with `True` |
| AppExamples.MainIdleUpdatesReminder | tests/test_app.py:98-116 | same run and tomorrow at 19:00: "no change" is logged first, then the reminder line; only the reminder goes out; the flag is written as `True` |
| AppExamples.MainWatering | tests/test_app.py:118-134 | WATERING exits, logging the running message, and writes nothing |
| AppExamples.MainStandby | tests/test_app.py:136-148 | STANDBY exits, logging the hibernation message, and writes nothing |

## Left out

- `notification`, `get_devicestate` and `get_nextrun` are HTTP calls. The notifications become the list `sent`, and the controller's answer is the `DeviceReport` parameter. The two log lines `get_devicestate` writes when a field is missing are not modelled.
- Every send is taken to succeed. In the source, a failing `notification` (rachio_notifier.py:44-51) raises out of `main` before `write_persistent_data` (rachio_notifier.py:214). The file is then left as it was, and the notice goes out again on the next invocation. That path is not modelled.
- On bootstrap the only fetch is the one in `load_persistent_data` (rachio_notifier.py:75), which exits before `main` reaches its own fetch. The model uses the `DeviceReport` parameter for it.
- `log_msg`'s choice between stdout and syslog, container detection, and the environment configuration are left out. Log lines are the list `logs`.
- `Schedule.TimeMagic`: the zone is a fixed UTC offset in minutes, not a pytz zone. Daylight-saving transitions are not modelled. The current time is a parameter instead of `datetime.now`.
- `Timestamp.Parse`: accepts only the canonical fixed-width layout with upper-case `T` and `Z`. `strptime` also accepts one-digit fields, a space-padded day (`" 2"`), lower-case letters, and non-ASCII Unicode digits (its patterns use `\d`). Those inputs are not modelled and are read as `ValueError`.
- The JSON encoding of the file is not modelled. The file is its decoded object, and the model covers only files that decode to an object.
  - A file that is not valid JSON raises in the source.
  - A top-level null, boolean or number raises `TypeError` at the `in` test (rachio_notifier.py:59).
  - A top-level array or string without the keys loads as `(None, None)` with both "not found" lines, exactly as the model's `Some(map[])` does.
  - An array or string that does contain a key raises `TypeError` when it is indexed.
- Process exit codes and the uncaught exception's traceback are not modelled. An invocation ends `Exited`, `Returned` or `Raised` with the error's kind.
- Field values: `Store.Value` holds null, booleans, strings and integers only. For those, a flag that is neither boolean nor null (it can only come from a hand-edited file) is carried and tested for truthiness as in Python. JSON floats, arrays and objects stored under a key are not modelled.

=== FILE: app_examples.dfy ===
/**
 * Concrete scenarios: the repository's own tests restated against the
 * model, and worked examples of the "tomorrow" rule and the weekday shown.
 * Chicago is five hours behind UTC in summer (October) and six in winter
 * (December).
 */
module AppExamples {
  import opened Wrappers
  import opened Calendar
  import opened Decimal
  import opened Store
  import opened Timestamp
  import opened Schedule
  import opened Engine
  import opened EngineProperties

  /** Chicago on daylight time (CDT). */
  const Chicago: UtcOffset := -300

  /** Chicago on standard time (CST). */
  const ChicagoWinter: UtcOffset := -360

  /** 2025-10-01 18:00 local time. */
  const FixedNow: DateTime := DateTime(Date(2025, 10, 1), 18, 0, 0)

  /** Writing ("2025-10-05T12:00:00Z", True) and loading it back gives the same pair. */
  lemma WriteAndLoad()
    ensures Load(Save(Record(Str("2025-10-05T12:00:00Z"), Bool(true))))
         == Found(Record(Str("2025-10-05T12:00:00Z"), Bool(true)), [])
  {
    LoadSave(Record(Str("2025-10-05T12:00:00Z"), Bool(true)));
  }

  // Small evaluations the concrete scenarios below are built from.

  lemma Two(n: nat, s: string)
    requires n < 100 && |s| == 2 && s[0] == DigitChar(n / 10) && s[1] == DigitChar(n % 10)
    ensures Padded(n, 2) == s
  {
    assert Padded(n / 10, 1) == [DigitChar(n / 10 % 10)];
  }

  /** A year of the 2020s, zero-padded to four digits. */
  lemma PaddedYear(y: nat, s: string)
    requires 2020 <= y < 2030
    requires |s| == 4 && s[0] == '2' && s[1] == '0' && s[2] == '2' && s[3] == DigitChar(y % 10)
    ensures Padded(y, 4) == s
  {
    assert Padded(2, 1) == "2";
    assert Padded(20, 2) == "20";
    assert Padded(202, 3) == "202";
    assert y / 10 == 202;
    assert Padded(y, 4) == "202" + [DigitChar(y % 10)];
    assert s == "202" + [s[3]];
  }

  lemma UnpaddedOne(n: nat)
    requires n < 10
    ensures Unpadded(n) == [DigitChar(n)]
  {
  }

  lemma UnpaddedTwo(n: nat)
    requires 10 <= n < 100
    ensures Unpadded(n) == [DigitChar(n / 10), DigitChar(n % 10)]
  {
  }

  lemma Format20251002()
    ensures Format(DateTime(Date(2025, 10, 2), 12, 0, 0)) == "2025-10-02T12:00:00Z"
  {
    PaddedYear(2025, "2025"); Two(10, "10"); Two(2, "02"); Two(12, "12"); Two(0, "00");
  }

  lemma Parse20251002()
    ensures Parse("2025-10-02T12:00:00Z") == Some(DateTime(Date(2025, 10, 2), 12, 0, 0))
  {
    Format20251002();
    ParseFormat(DateTime(Date(2025, 10, 2), 12, 0, 0));
  }

  lemma Format20251003()
    ensures Format(DateTime(Date(2025, 10, 3), 2, 0, 0)) == "2025-10-03T02:00:00Z"
  {
    PaddedYear(2025, "2025"); Two(10, "10"); Two(3, "03"); Two(2, "02"); Two(0, "00");
  }

  lemma Parse20251003()
    ensures Parse("2025-10-03T02:00:00Z") == Some(DateTime(Date(2025, 10, 3), 2, 0, 0))
  {
    Format20251003();
    ParseFormat(DateTime(Date(2025, 10, 3), 2, 0, 0));
  }

  lemma Format20261002()
    ensures Format(DateTime(Date(2026, 10, 2), 12, 0, 0)) == "2026-10-02T12:00:00Z"
  {
    PaddedYear(2026, "2026"); Two(10, "10"); Two(2, "02"); Two(12, "12"); Two(0, "00");
  }

  lemma Parse20261002()
    ensures Parse("2026-10-02T12:00:00Z") == Some(DateTime(Date(2026, 10, 2), 12, 0, 0))
  {
    Format20261002();
    ParseFormat(DateTime(Date(2026, 10, 2), 12, 0, 0));
  }

  lemma Format20260101()
    ensures Format(DateTime(Date(2026, 1, 1), 3, 0, 0)) == "2026-01-01T03:00:00Z"
  {
    PaddedYear(2026, "2026"); Two(1, "01"); Two(3, "03"); Two(0, "00");
  }

  lemma Parse20260101()
    ensures Parse("2026-01-01T03:00:00Z") == Some(DateTime(Date(2026, 1, 1), 3, 0, 0))
  {
    Format20260101();
    ParseFormat(DateTime(Date(2026, 1, 1), 3, 0, 0));
  }

  /** `time_magic`'s result, assembled from facts about each of its fields. */
  lemma TimeMagicIs(nextRun: string, now: DateTime, offset: UtcOffset, utc: DateTime, local: DateTime,
                    weekday: string, clock: string, monthDay: string, tomorrow: bool)
    requires Representable(now) && Parse(nextRun) == Some(utc)
    requires ToLocal(utc, offset) == local && InRange(local.date) && InRange(NextDay(now.date))
    requires WeekdayName(utc.date) == weekday
    requires ClockString(local) == clock && MonthDayString(local.date) == monthDay
    requires tomorrow <==> OnTomorrow(local.date, now.date)
    ensures TimeMagic(nextRun, now, offset) == Success(Evaluation(now.hour, weekday, clock, monthDay, tomorrow))
  {
  }

  lemma October2(y: int)
    ensures MonthDayString(Date(y, 10, 2)) == "10/2"
  {
    UnpaddedTwo(10); UnpaddedOne(2);
  }

  lemma Thursday20251002()
    ensures WeekdayName(Date(2025, 10, 2)) == "Thursday"
  {
    assert Weekday(Date(2025, 10, 2)) == 3;
  }

  lemma Friday20251003()
    ensures WeekdayName(Date(2025, 10, 3)) == "Friday"
  {
    assert Weekday(Date(2025, 10, 3)) == 4;
  }

  lemma SevenAM(d: Date)
    requires ValidDate(d)
    ensures ClockString(DateTime(d, 7, 0, 0)) == "7:00AM"
  {
    UnpaddedOne(7); Two(0, "00");
  }

  lemma NinePM(d: Date)
    requires ValidDate(d)
    ensures ClockString(DateTime(d, 21, 0, 0)) == "21:00PM"
  {
    UnpaddedTwo(21); Two(0, "00");
  }

  /** At 18:00 on 1 October in Chicago, a run at 2025-10-02T12:00:00Z (07:00 local on 2 October) is tomorrow. */
  lemma TimeMagicTomorrow()
    ensures TimeMagic("2025-10-02T12:00:00Z", FixedNow, Chicago)
         == Success(Evaluation(18, "Thursday", "7:00AM", "10/2", true))
  {
    Parse20251002();
    var utc := DateTime(Date(2025, 10, 2), 12, 0, 0);
    var local := DateTime(Date(2025, 10, 2), 7, 0, 0);
    assert ToLocal(utc, Chicago) == local;
    Thursday20251002();
    SevenAM(local.date);
    October2(2025);
    TimeMagicIs("2025-10-02T12:00:00Z", FixedNow, Chicago, utc, local, "Thursday", "7:00AM", "10/2", true);
  }

  /**
   * The weekday in the change notice is that of the UTC date: a run at
   * 2025-10-03T02:00:00Z is Thursday 2 October, 21:00, in Chicago, yet
   * `time_magic` names it Friday; the time reads "21:00PM".
   */
  lemma WeekdayIsTakenBeforeConversion()
    ensures TimeMagic("2025-10-03T02:00:00Z", DateTime(Date(2025, 9, 29), 18, 0, 0), Chicago)
         == Success(Evaluation(18, "Friday", "21:00PM", "10/2", false))
    ensures WeekdayName(Date(2025, 10, 2)) == "Thursday"
  {
    Parse20251003();
    var utc := DateTime(Date(2025, 10, 3), 2, 0, 0);
    var local := DateTime(Date(2025, 10, 2), 21, 0, 0);
    assert ToLocal(utc, Chicago) == local;
    Friday20251003();
    Thursday20251002();
    NinePM(local.date);
    October2(2025);
    assert !OnTomorrow(local.date, Date(2025, 9, 29));
    TimeMagicIs("2025-10-03T02:00:00Z", DateTime(Date(2025, 9, 29), 18, 0, 0), Chicago, utc, local,
                "Friday", "21:00PM", "10/2", false);
  }

  /** The year is not compared: a run a year and a day away still counts as tomorrow. */
  lemma YearIsNotCompared()
    ensures TimeMagic("2026-10-02T12:00:00Z", FixedNow, Chicago).Success?
    ensures TimeMagic("2026-10-02T12:00:00Z", FixedNow, Chicago).value.tomorrow
  {
    Parse20261002();
    assert ToLocal(DateTime(Date(2026, 10, 2), 12, 0, 0), Chicago) == DateTime(Date(2026, 10, 2), 7, 0, 0);
  }

  /**
   * On the evening of 30 December, a run at 2026-01-01T03:00:00Z is
   * 31 December, 21:00, in Chicago: tomorrow, because the move to local
   * time rolls the date back over the year's end.
   */
  lemma YearEndRollback()
    ensures TimeMagic("2026-01-01T03:00:00Z", DateTime(Date(2025, 12, 30), 20, 0, 0), ChicagoWinter).Success?
    ensures TimeMagic("2026-01-01T03:00:00Z", DateTime(Date(2025, 12, 30), 20, 0, 0), ChicagoWinter).value.tomorrow
  {
    Parse20260101();
    assert ToLocal(DateTime(Date(2026, 1, 1), 3, 0, 0), ChicagoWinter) == DateTime(Date(2025, 12, 31), 21, 0, 0);
  }

  /** The evaluation the tests substitute for `time_magic`. */
  function MockedTimeMagic(s: string): Result<Evaluation, TimeError> {
    Success(Mocked)
  }

  /** Loading a saved record logs nothing, so `main` is `Decide` on that record. */
  lemma MainOnSaved(rec: Record, device: DeviceReport, timeMagic: string -> Result<Evaluation, TimeError>)
    ensures Main(Save(rec), device, timeMagic) == Decide(rec, device, timeMagic)
  {
    LoadSave(rec);
    var inv := Decide(rec, device, timeMagic);
    assert [] + inv.logs == inv.logs;
  }

  const Mocked: Evaluation := Evaluation(19, "Thursday", "7:00PM", "10/2", true)

  /** The change line of the log opens with the notice's title. */
  lemma ChangeLogPrefix(ev: Evaluation)
    ensures StartsWith("Irrigation Schedule Changed - " + ChangeText(ev), "Irrigation Schedule Changed")
  {
    var p := "Irrigation Schedule Changed";
    assert "Irrigation Schedule Changed - " + ChangeText(ev) == p + (" - " + ChangeText(ev));
    PrefixOfAppend(p, " - " + ChangeText(ev));
  }

  /** The reminder line of the log opens with the sentence the tests look for. */
  lemma ReminderLogPrefix(ev: Evaluation)
    ensures StartsWith("Reminder: " + ReminderText(ev), "Reminder: Sprinklers will run tomorrow at")
  {
    var p := "Reminder: Sprinklers will run tomorrow at";
    ReminderLead();
    assert "Reminder: " + ReminderText(ev) == ("Reminder: " + "Sprinklers will run tomorrow at ") + ev.runTime;
    assert "Reminder: " + ReminderText(ev) == p + (" " + ev.runTime);
    PrefixOfAppend(p, " " + ev.runTime);
  }

  lemma ReminderLead()
    ensures "Reminder: " + "Sprinklers will run tomorrow at " == "Reminder: Sprinklers will run tomorrow at" + " "
  {
  }

  lemma PrefixOfAppend(a: string, b: string)
    ensures StartsWith(a + b, a)
  {
    assert (a + b)[..|a|] == a;
  }

  /** The idle branch when the fetched run differs from the stored one and no reminder has gone out. */
  lemma ChangedStep(rec: Record, nextRun: string, ev: Evaluation)
    requires ScheduleChanged(rec, nextRun) && !Truthy(rec.reminder)
    requires ev.tomorrow && InReminderWindow(ev.currentHour)
    ensures IdleStep(rec, nextRun, ev) == Invocation(
      [ChangeNotice(ev), ReminderNotice(ev)],
      ["Irrigation Schedule Changed - " + ChangeText(ev), "Reminder: " + ReminderText(ev)],
      Some(Record(Str(nextRun), Bool(true))), Returned)
  {
  }

  /** The idle branch when the fetched run is the stored one and no reminder has gone out. */
  lemma UnchangedStep(rec: Record, nextRun: string, ev: Evaluation)
    requires rec.nextRun == Str(nextRun) && !Truthy(rec.reminder)
    requires ev.tomorrow && InReminderWindow(ev.currentHour)
    ensures IdleStep(rec, nextRun, ev) == Invocation(
      [ReminderNotice(ev)], [NoChangeLog, "Reminder: " + ReminderText(ev)],
      Some(Record(Str(nextRun), Bool(true))), Returned)
  {
  }

  /**
   * Stored ("2025-10-01T12:00:00Z", False), fetched IDLE at
   * "2025-10-02T12:00:00Z", tomorrow at 19:00: the change is logged first,
   * both notices go out, and ("2025-10-02T12:00:00Z", True) is written.
   */
  lemma MainIdleUpdates()
    ensures var inv := Main(Save(Record(Str("2025-10-01T12:00:00Z"), Bool(false))),
                            DeviceReport(Some("IDLE"), Some("2025-10-02T12:00:00Z")), MockedTimeMagic);
      && inv.written == Some(Record(Str("2025-10-02T12:00:00Z"), Bool(true)))
      && StartsWith(inv.logs[0], "Irrigation Schedule Changed")
      && inv.sent == [ChangeNotice(Mocked), ReminderNotice(Mocked)]
  {
    var rec := Record(Str("2025-10-01T12:00:00Z"), Bool(false));
    var device := DeviceReport(Some("IDLE"), Some("2025-10-02T12:00:00Z"));
    MainOnSaved(rec, device, MockedTimeMagic);
    assert MockedTimeMagic("2025-10-02T12:00:00Z") == Success(Mocked);
    assert Decide(rec, device, MockedTimeMagic) == IdleStep(rec, "2025-10-02T12:00:00Z", Mocked);
    ChangedStep(rec, "2025-10-02T12:00:00Z", Mocked);
    ChangeLogPrefix(Mocked);
  }

  /**
   * Stored ("2025-10-02T12:00:00Z", False), same run fetched, tomorrow at
   * 19:00: "no change" is logged first, the reminder goes out, and the flag
   * is written as True.
   */
  lemma MainIdleUpdatesReminder()
    ensures var inv := Main(Save(Record(Str("2025-10-02T12:00:00Z"), Bool(false))),
                            DeviceReport(Some("IDLE"), Some("2025-10-02T12:00:00Z")), MockedTimeMagic);
      && inv.written == Some(Record(Str("2025-10-02T12:00:00Z"), Bool(true)))
      && inv.logs[0] == "No change to irrigation schedule was detected"
      && StartsWith(inv.logs[1], "Reminder: Sprinklers will run tomorrow at")
      && inv.sent == [ReminderNotice(Mocked)]
  {
    var rec := Record(Str("2025-10-02T12:00:00Z"), Bool(false));
    var device := DeviceReport(Some("IDLE"), Some("2025-10-02T12:00:00Z"));
    MainOnSaved(rec, device, MockedTimeMagic);
    assert MockedTimeMagic("2025-10-02T12:00:00Z") == Success(Mocked);
    assert Decide(rec, device, MockedTimeMagic) == IdleStep(rec, "2025-10-02T12:00:00Z", Mocked);
    UnchangedStep(rec, "2025-10-02T12:00:00Z", Mocked);
    ReminderLogPrefix(Mocked);
  }

  /** A watering controller exits after logging why, and writes nothing. */
  lemma MainWatering(timeMagic: string -> Result<Evaluation, TimeError>)
    ensures var inv := Decide(Record(Str("2025-10-01T12:00:00Z"), Bool(false)),
                              DeviceReport(Some("WATERING"), None), timeMagic);
      && inv.ending == Exited
      && inv.logs[0] == "Sprinklers are currently running. Not evaluating the schedule at this time."
      && inv.written == None
  {
  }

  /** A hibernating controller exits after logging why, and writes nothing. */
  lemma MainStandby(timeMagic: string -> Result<Evaluation, TimeError>)
    ensures var inv := Decide(Record(Null, Bool(false)), DeviceReport(Some("STANDBY"), None), timeMagic);
      && inv.ending == Exited
      && inv.logs[0] == "Controller is in hibernation mode. No schedule to evaluate."
      && inv.written == None
  {
  }
}

=== FILE: calendar.dfy ===
/**
 * The proleptic Gregorian calendar that Python's `datetime` uses: leap years,
 * month lengths, the successor and predecessor of a day, a day count from
 * 0001-01-01 and the weekday derived from it.
 */
module Calendar {

  datatype Date = Date(year: int, month: int, day: int)

  /** Python's `datetime.MINYEAR` and `datetime.MAXYEAR`. */
  const MinYear: int := 1
  const MaxYear: int := 9999

  predicate IsLeapYear(y: int) {
    y % 4 == 0 && (y % 100 != 0 || y % 400 == 0)
  }

  function DaysInMonth(y: int, m: int): (n: int)
    requires 1 <= m <= 12
    ensures 28 <= n <= 31
    ensures n == 29 <==> m == 2 && IsLeapYear(y)
  {
    if m == 2 then (if IsLeapYear(y) then 29 else 28)
    else if m == 4 || m == 6 || m == 9 || m == 11 then 30
    else 31
  }

  function YearLength(y: int): int {
    if IsLeapYear(y) then 366 else 365
  }

  /** A real calendar day; the year is any integer (the range Python admits is `InRange`). */
  predicate ValidDate(d: Date) {
    1 <= d.month <= 12 && 1 <= d.day <= DaysInMonth(d.year, d.month)
  }

  /** The dates a Python `date` can hold. */
  predicate InRange(d: Date) {
    MinYear <= d.year <= MaxYear
  }

  /** The calendar day after `d`, rolling over month and year ends. */
  function NextDay(d: Date): (r: Date)
    requires ValidDate(d)
    ensures ValidDate(r)
    ensures r.year == d.year || (r.year == d.year + 1 && r.month == 1 && r.day == 1)
    ensures r.day == 1 <==> d.day == DaysInMonth(d.year, d.month)
  {
    if d.day < DaysInMonth(d.year, d.month) then Date(d.year, d.month, d.day + 1)
    else if d.month < 12 then Date(d.year, d.month + 1, 1)
    else Date(d.year + 1, 1, 1)
  }

  /** The calendar day before `d`, rolling back over month and year starts. */
  function PrevDay(d: Date): (r: Date)
    requires ValidDate(d)
    ensures ValidDate(r)
    ensures r.year == d.year || (r.year == d.year - 1 && r.month == 12 && r.day == 31)
    ensures d.day == 1 <==> r.day == DaysInMonth(r.year, r.month)
  {
    if d.day > 1 then Date(d.year, d.month, d.day - 1)
    else if d.month > 1 then Date(d.year, d.month - 1, DaysInMonth(d.year, d.month - 1))
    else Date(d.year - 1, 12, 31)
  }

  /** Days in the years before `y`, counted from year 1 (negative for `y < 1`). */
  function DaysBeforeYear(y: int): int {
    var p := y - 1;
    365 * p + p / 4 - p / 100 + p / 400
  }

  /** Days in the months of a common year before each month. */
  const CumulativeDays: seq<int> := [0, 31, 59, 90, 120, 151, 181, 212, 243, 273, 304, 334]

  /** Days in the months of year `y` before month `m`. */
  function DaysBeforeMonth(y: int, m: int): int
    requires 1 <= m <= 12
  {
    CumulativeDays[m - 1] + (if m > 2 && IsLeapYear(y) then 1 else 0)
  }

  /** Days since 0001-01-01 (Python's `toordinal() - 1`). */
  function DayNumber(d: Date): int
    requires ValidDate(d)
  {
    DaysBeforeYear(d.year) + DaysBeforeMonth(d.year, d.month) + d.day - 1
  }

  /** 0 is Monday, 6 is Sunday, as Python's `date.weekday()`. */
  function Weekday(d: Date): (w: int)
    requires ValidDate(d)
    ensures 0 <= w < 7
  {
    DayNumber(d) % 7
  }

  const WeekdayNames: seq<string> :=
    ["Monday", "Tuesday", "Wednesday", "Thursday", "Friday", "Saturday", "Sunday"]

  /** The full weekday name `%A` prints in the C locale. */
  function WeekdayName(d: Date): (name: string)
    requires ValidDate(d)
    ensures name in WeekdayNames
    ensures forall i :: 0 <= i < 7 ==> (name == WeekdayNames[i] <==> Weekday(d) == i)
  {
    WeekdayNames[Weekday(d)]
  }

  // ---------------------------------------------------------------------
  // Properties of the day arithmetic
  // ---------------------------------------------------------------------

  lemma FloorStep4(p: int)
    ensures (p + 1) / 4 - p / 4 == if (p + 1) % 4 == 0 then 1 else 0
  {
  }

  lemma FloorStep100(p: int)
    ensures (p + 1) / 100 - p / 100 == if (p + 1) % 100 == 0 then 1 else 0
  {
  }

  lemma FloorStep400(p: int)
    ensures (p + 1) / 400 - p / 400 == if (p + 1) % 400 == 0 then 1 else 0
  {
  }

  /** A year is exactly as long as the gap between the starts of it and the next one. */
  lemma DaysBeforeNextYear(y: int)
    ensures DaysBeforeYear(y + 1) == DaysBeforeYear(y) + YearLength(y)
  {
    var p := y - 1;
    FloorStep4(p);
    FloorStep100(p);
    FloorStep400(p);
    assert p + 1 == y;
    LeapDivisors(y);
    assert DaysBeforeYear(y + 1) - DaysBeforeYear(y)
        == 365 + (if y % 4 == 0 then 1 else 0) - (if y % 100 == 0 then 1 else 0) + (if y % 400 == 0 then 1 else 0);
  }

  /** A multiple of 400 is a multiple of 100, and a multiple of 100 is a multiple of 4. */
  lemma LeapDivisors(y: int)
    ensures y % 400 == 0 ==> y % 100 == 0
    ensures y % 100 == 0 ==> y % 4 == 0
  {
    if y % 400 == 0 {
      Hundreds(4 * (y / 400));
    }
    if y % 100 == 0 {
      Fours(25 * (y / 100));
    }
  }

  lemma Hundreds(k: int)
    ensures (100 * k) % 100 == 0
  {
  }

  lemma Fours(k: int)
    ensures (4 * k) % 4 == 0
  {
  }

  /** Each month starts where the previous one ends. */
  lemma DaysBeforeNextMonth(y: int, m: int)
    requires 1 <= m < 12
    ensures DaysBeforeMonth(y, m + 1) == DaysBeforeMonth(y, m) + DaysInMonth(y, m)
  {
  }

  /** The twelve months of a year add up to the year's length. */
  lemma MonthsFillYear(y: int)
    ensures DaysBeforeMonth(y, 12) + DaysInMonth(y, 12) == YearLength(y)
  {
  }

  lemma ModSevenStep(n: int)
    ensures (n + 1) % 7 == (n % 7 + 1) % 7
  {
  }

  /** Stepping to the next day advances the day count by exactly one. */
  lemma NextDayNumber(d: Date)
    requires ValidDate(d)
    ensures DayNumber(NextDay(d)) == DayNumber(d) + 1
  {
    if d.day == DaysInMonth(d.year, d.month) {
      if d.month == 12 {
        DaysBeforeNextYear(d.year);
        MonthsFillYear(d.year);
      } else {
        DaysBeforeNextMonth(d.year, d.month);
      }
    }
  }

  /** Stepping back a day lowers the day count by exactly one. */
  lemma PrevDayNumber(d: Date)
    requires ValidDate(d)
    ensures DayNumber(PrevDay(d)) == DayNumber(d) - 1
  {
    if d.day == 1 {
      if d.month == 1 {
        DaysBeforeNextYear(d.year - 1);
        MonthsFillYear(d.year - 1);
      } else {
        DaysBeforeNextMonth(d.year, d.month - 1);
      }
    }
  }

  /** `PrevDay` undoes `NextDay`. */
  lemma PrevOfNext(d: Date)
    requires ValidDate(d)
    ensures PrevDay(NextDay(d)) == d
  {
  }

  /** `NextDay` undoes `PrevDay`. */
  lemma NextOfPrev(d: Date)
    requires ValidDate(d)
    ensures NextDay(PrevDay(d)) == d
  {
  }

  /** Consecutive days have consecutive weekdays, wrapping Sunday to Monday. */
  lemma NextDayWeekday(d: Date)
    requires ValidDate(d)
    ensures Weekday(NextDay(d)) == (Weekday(d) + 1) % 7
  {
    NextDayNumber(d);
    ModSevenStep(DayNumber(d));
  }

  /** Day 1 of the calendar, 0001-01-01, was a Monday. */
  lemma EpochIsMonday()
    ensures Weekday(Date(1, 1, 1)) == 0
  {
  }
}

=== FILE: decimal.dfy ===
/**
 * Decimal rendering of numbers as `strftime` does it: unpadded (`%-H`,
 * `%-m`, `%-d`) and zero-padded (`%M`, and the fixed-width fields of the
 * timestamp layout), with the reading
 * function that undoes each.
 */
module Decimal {

  predicate IsDigit(c: char) {
    '0' <= c <= '9'
  }

  predicate AllDigits(s: string) {
    forall i :: 0 <= i < |s| ==> IsDigit(s[i])
  }

  function DigitChar(d: int): (c: char)
    requires 0 <= d < 10
    ensures IsDigit(c)
  {
    (d + '0' as int) as char
  }

  function DigitValue(c: char): (d: int)
    requires IsDigit(c)
    ensures 0 <= d < 10
    ensures DigitChar(d) == c
  {
    c as int - '0' as int
  }

  /** The value of a string of decimal digits (0 for the empty string). */
  function ValueOf(s: string): (v: nat)
    requires AllDigits(s)
  {
    if s == [] then 0 else 10 * ValueOf(s[..|s| - 1]) + DigitValue(s[|s| - 1])
  }

  /** `n` without leading zeros, as `%-H`, `%-m` and `%-d` print it. */
  function Unpadded(n: nat): (s: string)
    ensures AllDigits(s) && 1 <= |s|
    ensures |s| == 1 || s[0] != '0'
  {
    if n < 10 then [DigitChar(n)] else Unpadded(n / 10) + [DigitChar(n % 10)]
  }

  /** `n` in exactly `width` digits, with leading zeros, as `%M` prints it and as the fixed-width fields of the timestamp layout are written. */
  function Padded(n: nat, width: nat): (s: string)
    ensures AllDigits(s) && |s| == width
  {
    if width == 0 then [] else Padded(n / 10, width - 1) + [DigitChar(n % 10)]
  }

  /** Reading back an unpadded rendering gives the number. */
  lemma {:induction false} UnpaddedValue(n: nat)
    ensures ValueOf(Unpadded(n)) == n
  {
    if n >= 10 {
      UnpaddedValue(n / 10);
      var s := Unpadded(n);
      assert s[..|s| - 1] == Unpadded(n / 10);
    }
  }

  /** Reading back a padded rendering gives the number, when it fits the width. */
  lemma {:induction false} PaddedValue(n: nat, width: nat)
    requires n < Power10(width)
    ensures ValueOf(Padded(n, width)) == n
  {
    if width > 0 {
      PaddedValue(n / 10, width - 1);
      var s := Padded(n, width);
      assert s[..|s| - 1] == Padded(n / 10, width - 1);
    }
  }

  function Power10(k: nat): (p: nat)
    ensures p >= 1
  {
    if k == 0 then 1 else 10 * Power10(k - 1)
  }

  /** Every digit string of a given width is the padded rendering of its value. */
  lemma {:induction false} PaddedOfValue(s: string)
    requires AllDigits(s)
    ensures ValueOf(s) < Power10(|s|)
    ensures Padded(ValueOf(s), |s|) == s
  {
    if s != [] {
      var init := s[..|s| - 1];
      PaddedOfValue(init);
      var v := ValueOf(s);
      var d := DigitValue(s[|s| - 1]);
      assert v / 10 == ValueOf(init) && v % 10 == d;
    }
  }

  /** Different numbers never print alike. */
  lemma UnpaddedInjective(a: nat, b: nat)
    requires Unpadded(a) == Unpadded(b)
    ensures a == b
  {
    UnpaddedValue(a);
    UnpaddedValue(b);
  }

  /**
   * Two strings of the shape `digits sep digits` are equal exactly when
   * their parts are: the separator can only sit in one place.
   */
  lemma SplitAtSeparator(a: string, b: string, c: string, d: string, sep: char)
    requires AllDigits(a) && AllDigits(b) && AllDigits(c) && AllDigits(d)
    requires !IsDigit(sep)
    ensures a + [sep] + b == c + [sep] + d <==> a == c && b == d
  {
    if a + [sep] + b == c + [sep] + d {
      var s := a + [sep] + b;
      assert |a| == |c| by {
        assert s[|a|] == sep && s[|c|] == sep;
      }
      assert a == s[..|a|] == c;
      assert b == s[|a| + 1..] == d;
    }
  }
}

=== FILE: engine.dfy ===
/**
 * The decision engine (`main`): one invocation reads the persisted record
 * and the controller's state, and decides which notifications to send and
 * what record, if any, to write back. Process exit is an `Ending` value and
 * the notification relay is the list `sent`.
 */
module Engine {
  import opened Wrappers
  import opened Store
  import opened Timestamp
  import opened Schedule

  /** What `get_devicestate` returns: the `state` and `nextRun` fields, each possibly absent. */
  datatype DeviceReport = DeviceReport(state: Option<string>, nextRun: Option<string>)

  /** How the invocation ends: `sys.exit()`, falling off the end of `main`, or an exception. */
  datatype Ending = Exited | Returned | Raised(error: TimeError)

  /** Everything an invocation does that is visible outside it, in order. */
  datatype Invocation = Invocation(
    sent: seq<string>,         // notification bodies, in sending order
    logs: seq<string>,         // log lines, in order
    written: Option<Record>,   // the record written to the state file, if any
    ending: Ending)

  /** The local `reminder` of `main`: unassigned until one of its branches sets it. */
  datatype Binding = Unbound | Bound(b: bool)

  const Idle: string := "IDLE"
  const Watering: string := "WATERING"
  const Standby: string := "STANDBY"

  /** The local hours, inclusive at both ends, in which the evening reminder may go out. */
  const ReminderFrom: int := 18
  const ReminderTo: int := 22

  const WateringLog: string := "Sprinklers are currently running. Not evaluating the schedule at this time."
  const StandbyLog: string := "Controller is in hibernation mode. No schedule to evaluate."
  const NoChangeLog: string := "No change to irrigation schedule was detected"
  const BootstrapLog: string := "file not found: " + StatePath + ". Fetch new data and exit"

  /** The body of the change notice, without its title. */
  function ChangeText(ev: Evaluation): string {
    if ev.tomorrow then "Next Run: Tomorrow at " + ev.runTime
    else "Next Run: " + ev.weekday + " " + ev.runDate + " at " + ev.runTime
  }

  /** The first lines of the two notifications. */
  const ChangeTitle: string := "Irrigation Schedule Changed\n"
  const ReminderTitle: string := "Reminder\n"

  /**
   * The change notice: its title line, then "Next Run: " and either
   * "Tomorrow" or the weekday and `m/d`, ending with " at " and the time.
   */
  function ChangeNotice(ev: Evaluation): (n: string)
    ensures ChangeTitle + "Next Run: " <= n
    ensures var when := (if ev.tomorrow then "Tomorrow" else ev.weekday + " " + ev.runDate) + " at " + ev.runTime;
      |when| <= |n| && n[|n| - |when|..] == when
  {
    var when := (if ev.tomorrow then "Tomorrow" else ev.weekday + " " + ev.runDate) + " at " + ev.runTime;
    var text := ChangeText(ev);
    assert text == "Next Run: " + when;
    Affixes(ChangeTitle + "Next Run: ", when);
    ChangeTitle + text
  }

  /** `a` opens `a + b` and `b` closes it. */
  lemma Affixes(a: string, b: string)
    ensures a <= a + b
    ensures (a + b)[|a + b| - |b|..] == b
  {
  }

  function ReminderText(ev: Evaluation): string {
    "Sprinklers will run tomorrow at " + ev.runTime
  }

  /** The reminder: its title line, then a fixed sentence ending with the time. */
  function ReminderNotice(ev: Evaluation): (n: string)
    ensures ReminderTitle <= n
    ensures |ev.runTime| <= |n| && n[|n| - |ev.runTime|..] == ev.runTime
  {
    ReminderTitle + ReminderText(ev)
  }

  /** The reminder names the run time and nothing else: two reminders agree exactly when their times do. */
  lemma ReminderNamesOnlyTime(a: Evaluation, b: Evaluation)
    ensures ReminderNotice(a) == ReminderNotice(b) <==> a.runTime == b.runTime
  {
    var p := ReminderTitle + "Sprinklers will run tomorrow at ";
    assert ReminderNotice(a) == p + a.runTime && ReminderNotice(b) == p + b.runTime;
    if ReminderNotice(a) == ReminderNotice(b) {
      assert a.runTime == (p + a.runTime)[|p|..];
    }
  }

  /** The two kinds of notification can never be confused. */
  lemma NoticesDiffer(a: Evaluation, b: Evaluation)
    ensures ChangeNotice(a) != ReminderNotice(b)
  {
    assert ChangeNotice(a)[0] == 'I';
    assert ReminderNotice(b)[0] == 'R';
  }

  predicate InReminderWindow(hour: int) {
    ReminderFrom <= hour <= ReminderTo
  }

  /** The fetched run is not the stored one (Python `!=`; a stored `None` always differs). */
  predicate ScheduleChanged(stored: Record, nextRun: string) {
    stored.nextRun != Str(nextRun)
  }

  /** The reminder test reads the persisted flag, not the one the change branch just set. */
  predicate ReminderDue(stored: Record, ev: Evaluation) {
    InReminderWindow(ev.currentHour) && ev.tomorrow && !Truthy(stored.reminder)
  }

  /** The flag written back: the reminder sets it, else a change resets it to `tomorrow`, else it is carried. */
  function NewReminder(stored: Record, nextRun: string, ev: Evaluation): (flag: Value)
    ensures ReminderDue(stored, ev) ==> flag == Bool(true)
    ensures ScheduleChanged(stored, nextRun) ==> flag.Bool?
    ensures !ScheduleChanged(stored, nextRun) && Truthy(stored.reminder) ==> flag == stored.reminder
    ensures !ReminderDue(Record(Str(nextRun), flag), ev)
  {
    if ReminderDue(stored, ev) then Bool(true)
    else if ScheduleChanged(stored, nextRun) then Bool(ev.tomorrow)
    else stored.reminder
  }

  /** Number of occurrences of `m` in `ms`. */
  function Occurrences(ms: seq<string>, m: string): nat {
    multiset(ms)[m]
  }

  /** The branch of `main` for an idle controller with a scheduled run, after `time_magic` succeeded. */
  function IdleStep(stored: Record, nextRun: string, ev: Evaluation): (inv: Invocation)
    ensures inv.ending == Returned
    ensures inv.written == Some(Record(Str(nextRun), NewReminder(stored, nextRun, ev)))
    ensures Occurrences(inv.sent, ChangeNotice(ev)) == if ScheduleChanged(stored, nextRun) then 1 else 0
    ensures Occurrences(inv.sent, ReminderNotice(ev)) == if ReminderDue(stored, ev) then 1 else 0
    ensures |inv.sent| == Occurrences(inv.sent, ChangeNotice(ev)) + Occurrences(inv.sent, ReminderNotice(ev))
    ensures |inv.sent| == 2 ==> inv.sent == [ChangeNotice(ev), ReminderNotice(ev)]
  {
    NoticesDiffer(ev, ev);
    var changed := ScheduleChanged(stored, nextRun);
    var sent1 := if changed then [ChangeNotice(ev)] else [];
    var logs1 := if changed then ["Irrigation Schedule Changed - " + ChangeText(ev)] else [NoChangeLog];
    var reminder := if changed then Bound(ev.tomorrow) else Unbound;
    var due := ReminderDue(stored, ev);
    var sent2 := if due then [ReminderNotice(ev)] else [];
    var logs2 := if due then ["Reminder: " + ReminderText(ev)] else [];
    var reminder' := if due then Bound(true) else reminder;
    // The `NameError` fallback: an unassigned `reminder` takes the persisted value.
    var flag := match reminder' case Bound(b) => Bool(b) case Unbound => stored.reminder;
    Invocation(sent1 + sent2, logs1 + logs2, Some(Record(Str(nextRun), flag)), Returned)
  }

  /** `main` after the record has been loaded, with `time_magic` passed in. */
  function Decide(stored: Record, device: DeviceReport, timeMagic: string -> Result<Evaluation, TimeError>): (inv: Invocation)
    ensures |inv.sent| <= 2
    ensures inv.written.Some? <==>
      device.state == Some(Idle) && device.nextRun.Some? && timeMagic(device.nextRun.value).Success?
    ensures inv.written.Some? ==> inv.written.value.nextRun == Str(device.nextRun.value)
    ensures inv.sent != [] ==> inv.written.Some?
    ensures device.state != Some(Idle) ==>
      && inv.sent == [] && inv.written == None
      && (inv.ending == Exited <==> device.state == Some(Watering) || device.state == Some(Standby))
      && (inv.ending == Returned <==> device.state != Some(Watering) && device.state != Some(Standby))
    ensures device.state == Some(Idle) && device.nextRun == None ==>
      inv.sent == [] && inv.written == None && inv.ending == Exited
  {
    if device.state == Some(Idle) then
      match device.nextRun
      case None => Invocation([], [], None, Exited)
      case Some(nextRun) =>
        match timeMagic(nextRun)
        case Failure(e) => Invocation([], [], None, Raised(e))
        case Success(ev) => IdleStep(stored, nextRun, ev)
    else if device.state == Some(Watering) then Invocation([], [WateringLog], None, Exited)
    else if device.state == Some(Standby) then Invocation([], [StandbyLog], None, Exited)
    else Invocation([], [], None, Returned)
  }

  /** The value `get_devicestate` hands to `write_persistent_data` for the run. */
  function RunValue(nextRun: Option<string>): Value {
    match nextRun
    case None => Null
    case Some(s) => Str(s)
  }

  /** `main`: load (bootstrapping a missing file), then decide. */
  function Main(file: StateFile, device: DeviceReport, timeMagic: string -> Result<Evaluation, TimeError>): (inv: Invocation)
    ensures file.None? ==>
      && inv.sent == []
      && inv.written == Some(Record(RunValue(device.nextRun), Bool(false)))
      && inv.ending == Exited
    ensures file.Some? ==> |inv.sent| <= 2
  {
    match Load(file)
    case NotFound => Invocation([], [BootstrapLog], Some(Record(RunValue(device.nextRun), Bool(false))), Exited)
    case Found(stored, loadLogs) =>
      var inv := Decide(stored, device, timeMagic);
      inv.(logs := loadLogs + inv.logs)
  }

  /** One invocation with the real `time_magic`, at local time `now` in a zone `offset` minutes from UTC. */
  function Run(file: StateFile, device: DeviceReport, now: DateTime, offset: UtcOffset): (inv: Invocation)
    requires Representable(now)
    ensures |inv.sent| <= 2
  {
    Main(file, device, s => TimeMagic(s, now, offset))
  }

  /** The state file once the invocation is over. */
  function FileAfter(file: StateFile, inv: Invocation): StateFile {
    match inv.written
    case None => file
    case Some(rec) => Save(rec)
  }
}

=== FILE: engine_properties.dfy ===
/**
 * Properties of whole invocations of `main`, and of a series of them
 * sharing one state file, as a periodic scheduler would run them.
 */
module EngineProperties {
  import opened Wrappers
  import opened Calendar
  import opened Store
  import opened Timestamp
  import opened Schedule
  import opened Engine

  /** A controller that is idle with a run scheduled at `nextRun`. */
  function IdleWith(nextRun: string): DeviceReport {
    DeviceReport(Some(Idle), Some(nextRun))
  }

  /**
   * With a record on disk, a controller that is not idle, or idle with
   * nothing scheduled, gets no notification and leaves the file alone;
   * `WATERING`, `STANDBY` and idle-without-run exit, any other state returns.
   */
  lemma NonIdleShortCircuit(file: StateFile, device: DeviceReport, timeMagic: string -> Result<Evaluation, TimeError>)
    requires file.Some?
    requires device.state != Some(Idle) || device.nextRun.None?
    ensures var inv := Main(file, device, timeMagic);
      && inv.sent == []
      && FileAfter(file, inv) == file
      && (inv.ending == Exited <==>
            device.state in {Some(Idle), Some(Watering), Some(Standby)})
      && (inv.ending == Returned <==>
            device.state !in {Some(Idle), Some(Watering), Some(Standby)})
  {
  }

  /**
   * A missing state file is created holding the fetched run and `false`;
   * nothing is sent and the invocation exits, whatever the controller's state.
   */
  lemma Bootstrap(device: DeviceReport, timeMagic: string -> Result<Evaluation, TimeError>)
    ensures var inv := Main(None, device, timeMagic);
      && inv.sent == []
      && inv.ending == Exited
      && Load(FileAfter(None, inv)) == Found(Record(RunValue(device.nextRun), Bool(false)), [])
  {
    LoadSave(Record(RunValue(device.nextRun), Bool(false)));
  }

  predicate StartsWith(m: string, prefix: string) {
    |prefix| <= |m| && m[..|prefix|] == prefix
  }

  /** How many of the messages `ms` open with `title`. */
  function Titled(ms: seq<string>, title: string): nat {
    if ms == [] then 0 else (if StartsWith(ms[0], title) then 1 else 0) + Titled(ms[1..], title)
  }

  lemma {:induction false} TitledAppend(a: seq<string>, b: seq<string>, title: string)
    ensures Titled(a + b, title) == Titled(a, title) + Titled(b, title)
  {
    if a == [] {
      assert a + b == b;
    } else {
      assert (a + b)[1..] == a[1..] + b;
      TitledAppend(a[1..], b, title);
    }
  }

  function Changes(ms: seq<string>): nat {
    Titled(ms, ChangeTitle)
  }

  function Reminders(ms: seq<string>): nat {
    Titled(ms, ReminderTitle)
  }

  lemma TitledSingle(m: string, title: string)
    ensures Titled([m], title) == if StartsWith(m, title) then 1 else 0
  {
    assert [m][1..] == [];
  }

  /** The notices of one idle step: the change notice when the run changed, then the reminder when due. */
  lemma IdleStepSent(stored: Record, nextRun: string, ev: Evaluation)
    ensures IdleStep(stored, nextRun, ev).sent ==
      (if ScheduleChanged(stored, nextRun) then [ChangeNotice(ev)] else []) +
      (if ReminderDue(stored, ev) then [ReminderNotice(ev)] else [])
  {
  }

  lemma NoticeTitles(ev: Evaluation)
    ensures StartsWith(ChangeNotice(ev), ChangeTitle) && !StartsWith(ChangeNotice(ev), ReminderTitle)
    ensures StartsWith(ReminderNotice(ev), ReminderTitle) && !StartsWith(ReminderNotice(ev), ChangeTitle)
  {
    var c := ChangeNotice(ev);
    var r := ReminderNotice(ev);
    assert c[..|ChangeTitle|] == ChangeTitle;
    assert c[0] == 'I';
    assert r[..|ReminderTitle|] == ReminderTitle;
    assert r[0] == 'R';
  }

  /** How many notices of each kind a list of at most one change notice and one reminder holds. */
  lemma NoticeCounts(ev: Evaluation, changed: bool, due: bool)
    ensures var sent := (if changed then [ChangeNotice(ev)] else []) + (if due then [ReminderNotice(ev)] else []);
      && Changes(sent) == (if changed then 1 else 0)
      && Reminders(sent) == (if due then 1 else 0)
  {
    var a: seq<string> := if changed then [ChangeNotice(ev)] else [];
    var b: seq<string> := if due then [ReminderNotice(ev)] else [];
    NoticeTitles(ev);
    TitledAppend(a, b, ChangeTitle);
    TitledAppend(a, b, ReminderTitle);
    TitledSingle(ChangeNotice(ev), ChangeTitle);
    TitledSingle(ChangeNotice(ev), ReminderTitle);
    TitledSingle(ReminderNotice(ev), ChangeTitle);
    TitledSingle(ReminderNotice(ev), ReminderTitle);
  }

  /**
   * One idle step sends one change notice when the run changed, one reminder
   * when it is due, and nothing else, the change notice first.
   */
  lemma IdleStepCounts(stored: Record, nextRun: string, ev: Evaluation)
    ensures var sent := IdleStep(stored, nextRun, ev).sent;
      && Changes(sent) == (if ScheduleChanged(stored, nextRun) then 1 else 0)
      && Reminders(sent) == (if ReminderDue(stored, ev) then 1 else 0)
      && |sent| == Changes(sent) + Reminders(sent)
      && (Changes(sent) == 1 ==> sent[0] == ChangeNotice(ev))
      && (Reminders(sent) == 1 ==> sent[|sent| - 1] == ReminderNotice(ev))
  {
    IdleStepSent(stored, nextRun, ev);
    NoticeCounts(ev, ScheduleChanged(stored, nextRun), ReminderDue(stored, ev));
  }

  /** An idle invocation on an existing file is the idle step on the loaded record, or nothing when `time_magic` raises. */
  lemma RunIdle(file: StateFile, nextRun: string, now: DateTime, offset: UtcOffset)
    requires Representable(now) && file.Some?
    ensures var inv := Run(file, IdleWith(nextRun), now, offset);
      match TimeMagic(nextRun, now, offset)
      case Failure(e) => inv.sent == [] && inv.written == None && inv.ending == Raised(e)
      case Success(ev) =>
        var step := IdleStep(Load(file).record, nextRun, ev);
        inv.sent == step.sent && inv.written == step.written
  {
  }

  /** The change notice text built straight from the calendar, independently of `time_magic`. */
  function ExpectedChangeText(nextRun: string, now: DateTime, offset: UtcOffset): string
    requires Parse(nextRun).Some? && Representable(now)
  {
    var utc := Parse(nextRun).value;
    var local := ToLocal(utc, offset);
    if OnTomorrow(local.date, now.date) then "Next Run: Tomorrow at " + ClockString(local)
    else "Next Run: " + WeekdayName(utc.date) + " " + MonthDayString(local.date) + " at " + ClockString(local)
  }

  /**
   * With a record on disk and an idle controller, the change notice goes out
   * exactly when `time_magic` succeeds and the fetched run differs from the
   * stored one; it says "Tomorrow at T" when the run's local month and day
   * are tomorrow's and "Day m/d at T" otherwise.
   */
  lemma RunChangeNotice(file: StateFile, nextRun: string, now: DateTime, offset: UtcOffset)
    requires Representable(now) && file.Some?
    ensures var inv := Run(file, IdleWith(nextRun), now, offset);
      && Changes(inv.sent) ==
           (if TimeMagic(nextRun, now, offset).Success? && ScheduleChanged(Load(file).record, nextRun) then 1 else 0)
      && (Changes(inv.sent) == 1 ==>
            inv.sent[0] == ChangeTitle + ExpectedChangeText(nextRun, now, offset))
  {
    RunIdle(file, nextRun, now, offset);
    match TimeMagic(nextRun, now, offset)
    case Failure(_) =>
    case Success(ev) =>
      IdleStepCounts(Load(file).record, nextRun, ev);
  }

  /** The reminder of one idle step, in terms of what `time_magic` reports about the run. */
  lemma StepReminder(stored: Record, nextRun: string, ev: Evaluation, hour: int, tomorrow: bool, clock: string)
    requires ev.currentHour == hour && (ev.tomorrow <==> tomorrow) && ev.runTime == clock
    ensures var sent := IdleStep(stored, nextRun, ev).sent;
      && Reminders(sent) == (if InReminderWindow(hour) && tomorrow && !Truthy(stored.reminder) then 1 else 0)
      && (Reminders(sent) == 1 ==>
            sent[|sent| - 1] == ReminderTitle + "Sprinklers will run tomorrow at " + clock)
  {
    IdleStepCounts(stored, nextRun, ev);
    assert ReminderNotice(ev) == ReminderTitle + "Sprinklers will run tomorrow at " + clock;
  }

  /**
   * With a record on disk and an idle controller, the reminder goes out
   * exactly when `time_magic` succeeds, the local hour is 18 to 22
   * inclusive, the run's local month and day are tomorrow's, and the stored
   * flag is falsy; it is the last notification and names the local time.
   */
  lemma RunReminder(file: StateFile, nextRun: string, now: DateTime, offset: UtcOffset)
    requires Representable(now) && file.Some?
    ensures var inv := Run(file, IdleWith(nextRun), now, offset);
      && Reminders(inv.sent) ==
           (if && TimeMagic(nextRun, now, offset).Success?
               && InReminderWindow(now.hour)
               && OnTomorrow(LocalRun(nextRun, offset).date, now.date)
               && !Truthy(Load(file).record.reminder)
            then 1 else 0)
      && (Reminders(inv.sent) == 1 ==>
            inv.sent[|inv.sent| - 1] ==
              ReminderTitle + "Sprinklers will run tomorrow at " + ClockString(LocalRun(nextRun, offset)))
  {
    RunIdle(file, nextRun, now, offset);
    match TimeMagic(nextRun, now, offset)
    case Failure(_) =>
    case Success(ev) =>
      var local := LocalRun(nextRun, offset);
      StepReminder(Load(file).record, nextRun, ev, now.hour, OnTomorrow(local.date, now.date), ClockString(local));
  }

  /**
   * A change to a run tomorrow, inside the reminder window, with no reminder
   * stored, sends both notices and marks the reminder sent.
   */
  lemma ChangeToTomorrowSendsBoth(stored: Record, nextRun: string, ev: Evaluation)
    requires ScheduleChanged(stored, nextRun)
    requires ev.tomorrow && InReminderWindow(ev.currentHour) && !Truthy(stored.reminder)
    ensures IdleStep(stored, nextRun, ev).sent == [ChangeNotice(ev), ReminderNotice(ev)]
    ensures IdleStep(stored, nextRun, ev).written == Some(Record(Str(nextRun), Bool(true)))
  {
  }

  /** Once the stored run is the fetched one and its reminder is marked, nothing is sent and the same record is written. */
  lemma RemindedIsQuiet(stored: Record, nextRun: string, ev: Evaluation)
    requires stored.nextRun == Str(nextRun) && Truthy(stored.reminder)
    ensures IdleStep(stored, nextRun, ev).sent == []
    ensures IdleStep(stored, nextRun, ev).written == Some(stored)
  {
  }

  /**
   * Running again at the same moment on the record an idle invocation just
   * wrote sends nothing and writes the same record: the record is a fixed point.
   */
  lemma RerunIsQuiet(file: StateFile, nextRun: string, now: DateTime, offset: UtcOffset)
    requires Representable(now) && file.Some? && TimeMagic(nextRun, now, offset).Success?
    ensures var first := Run(file, IdleWith(nextRun), now, offset);
      var second := Run(FileAfter(file, first), IdleWith(nextRun), now, offset);
      && first.written.Some?
      && second.sent == []
      && second.written == first.written
  {
    var first := Run(file, IdleWith(nextRun), now, offset);
    RunIdle(file, nextRun, now, offset);
    var ev := TimeMagic(nextRun, now, offset).value;
    var stored := Load(file).record;
    var rec := Record(Str(nextRun), NewReminder(stored, nextRun, ev));
    assert first.written == Some(rec);
    assert NewReminder(rec, nextRun, ev) == rec.reminder;
    LoadSave(rec);
    RunIdle(Save(rec), nextRun, now, offset);
  }

  // ---------------------------------------------------------------------
  // A series of invocations on one state file
  // ---------------------------------------------------------------------

  predicate AllRepresentable(nows: seq<DateTime>) {
    forall i :: 0 <= i < |nows| ==> Representable(nows[i])
  }

  /** Invocations at the clock readings `nows`, in order, each on the file the previous one left; returns the final file and all notifications sent. */
  function Series(file: StateFile, device: DeviceReport, nows: seq<DateTime>, offset: UtcOffset): (StateFile, seq<string>)
    requires AllRepresentable(nows)
    decreases |nows|
  {
    if nows == [] then (file, [])
    else
      var inv := Run(file, device, nows[0], offset);
      var (last, later) := Series(FileAfter(file, inv), device, nows[1..], offset);
      (last, inv.sent + later)
  }

  /** The file already holds the fetched run. */
  predicate Settled(file: StateFile, nextRun: string) {
    file.Some? && Load(file).record.nextRun == Str(nextRun)
  }

  /** The file holds the fetched run and a truthy reminder flag. */
  predicate Reminded(file: StateFile, nextRun: string) {
    Settled(file, nextRun) && Truthy(Load(file).record.reminder)
  }

  /** What one invocation of an idle controller with a fixed run does, in the terms of the series bound. */
  lemma StepBound(file: StateFile, nextRun: string, now: DateTime, offset: UtcOffset)
    requires Representable(now)
    ensures var inv := Run(file, IdleWith(nextRun), now, offset);
      var after := FileAfter(file, inv);
      && (Reminded(file, nextRun) ==> inv.sent == [] && Reminded(after, nextRun))
      && (Settled(file, nextRun) ==> |inv.sent| <= 1)
      && Reminders(inv.sent) <= 1
      && (Reminders(inv.sent) == 1 ==> Reminded(after, nextRun))
      && (|inv.sent| == 2 ==> Reminded(after, nextRun))
      && (Settled(after, nextRun) || (after == file && inv.sent == []))
  {
    var inv := Run(file, IdleWith(nextRun), now, offset);
    match file
    case None =>
      LoadSave(inv.written.value);
    case Some(_) =>
      RunIdle(file, nextRun, now, offset);
      match TimeMagic(nextRun, now, offset)
      case Failure(_) =>
      case Success(ev) =>
        var stored := Load(file).record;
        var rec := Record(Str(nextRun), NewReminder(stored, nextRun, ev));
        assert inv.written == Some(rec);
        LoadSave(rec);
        assert FileAfter(file, inv) == Save(rec);
        IdleStepCounts(stored, nextRun, ev);
        assert Reminders(inv.sent) == 1 ==> Truthy(rec.reminder);
  }

  /**
   * However many times an idle controller with a fixed run is polled, and at
   * whatever clock readings, it sends at most two notifications in all (one
   * change notice, one reminder) and at most one reminder; none once the file
   * records the reminder for that run, and at most the reminder once the file
   * holds the run.
   */
  lemma {:induction false} SeriesBound(file: StateFile, nextRun: string, nows: seq<DateTime>, offset: UtcOffset)
    requires AllRepresentable(nows)
    ensures var sent := Series(file, IdleWith(nextRun), nows, offset).1;
      && |sent| <= (if Reminded(file, nextRun) then 0 else if Settled(file, nextRun) then 1 else 2)
      && Reminders(sent) <= (if Reminded(file, nextRun) then 0 else 1)
    decreases |nows|
  {
    if nows != [] {
      var inv := Run(file, IdleWith(nextRun), nows[0], offset);
      var after := FileAfter(file, inv);
      StepBound(file, nextRun, nows[0], offset);
      assert AllRepresentable(nows[1..]);
      SeriesBound(after, nextRun, nows[1..], offset);
      var later := Series(after, IdleWith(nextRun), nows[1..], offset).1;
      assert Series(file, IdleWith(nextRun), nows, offset).1 == inv.sent + later;
      TitledAppend(inv.sent, later, ReminderTitle);
    }
  }
}

=== FILE: schedule.dfy ===
/**
 * The schedule evaluator (`time_magic`): reads the next run's UTC
 * timestamp, moves it to local time, formats its time, date and weekday,
 * and decides whether it falls on tomorrow's date.
 */
module Schedule {
  import opened Wrappers
  import opened Calendar
  import opened Decimal
  import opened Timestamp

  /**
   * The local zone as a fixed offset from UTC in minutes, east positive.
   * Every zone in the time-zone database lies strictly within a day of UTC.
   */
  type UtcOffset = m: int | -MinutesPerDay < m < MinutesPerDay

  const MinutesPerDay: int := 1440

  /** Seconds since 0001-01-01T00:00:00 on the clock `t` is read from. */
  function Seconds(t: DateTime): int
    requires ValidDate(t.date)
  {
    DayNumber(t.date) * 86400 + t.hour * 3600 + t.minute * 60 + t.second
  }

  /** The wall-clock reading in a zone `offset` minutes east of UTC. */
  function ToLocal(utc: DateTime, offset: UtcOffset): (local: DateTime)
    requires ValidDateTime(utc)
    ensures ValidDateTime(local)
    ensures local.second == utc.second
    ensures local.date == utc.date || local.date == NextDay(utc.date) || local.date == PrevDay(utc.date)
  {
    var m := utc.hour * 60 + utc.minute + offset;
    if m >= MinutesPerDay then
      DateTime(NextDay(utc.date), (m - MinutesPerDay) / 60, (m - MinutesPerDay) % 60, utc.second)
    else if m < 0 then
      DateTime(PrevDay(utc.date), (m + MinutesPerDay) / 60, (m + MinutesPerDay) % 60, utc.second)
    else
      DateTime(utc.date, m / 60, m % 60, utc.second)
  }

  /** The local reading is the same instant: exactly `offset` minutes later on the clock. */
  lemma ToLocalSeconds(utc: DateTime, offset: UtcOffset)
    requires ValidDateTime(utc)
    ensures Seconds(ToLocal(utc, offset)) == Seconds(utc) + 60 * offset
  {
    var m := utc.hour * 60 + utc.minute + offset;
    if m >= MinutesPerDay {
      NextDayNumber(utc.date);
    } else if m < 0 {
      PrevDayNumber(utc.date);
    }
  }

  /** `%-H:%M%p`: unpadded 24-hour hour, two-digit minute, then `AM` or `PM`. */
  function ClockString(t: DateTime): (s: string)
    requires ValidDateTime(t)
    ensures 6 <= |s|
    ensures s[|s| - 2..] == if t.hour < 12 then "AM" else "PM"
    ensures s[|s| - 5] == ':'
    ensures AllDigits(s[..|s| - 5]) && ValueOf(s[..|s| - 5]) == t.hour
    ensures AllDigits(s[|s| - 4..|s| - 2]) && ValueOf(s[|s| - 4..|s| - 2]) == t.minute
  {
    var h, m := Unpadded(t.hour), Padded(t.minute, 2);
    var s := h + ":" + m + (if t.hour < 12 then "AM" else "PM");
    assert s[..|s| - 5] == h;
    assert s[|s| - 4..|s| - 2] == m;
    UnpaddedValue(t.hour);
    PaddedValue(t.minute, 2);
    s
  }

  /** `%-m/%-d`: unpadded month and day; the year is not shown. */
  function MonthDayString(d: Date): (s: string)
    requires ValidDate(d)
    ensures exists k ::
              && 0 < k < |s| - 1 && s[k] == '/'
              && AllDigits(s[..k]) && ValueOf(s[..k]) == d.month
              && AllDigits(s[k + 1..]) && ValueOf(s[k + 1..]) == d.day
  {
    var m, n := Unpadded(d.month), Unpadded(d.day);
    var s := m + "/" + n;
    assert s[..|m|] == m && s[|m| + 1..] == n;
    UnpaddedValue(d.month);
    UnpaddedValue(d.day);
    s
  }

  /** Two dates print the same `m/d` exactly when month and day agree, whatever the years. */
  lemma MonthDayStringsEqual(a: Date, b: Date)
    requires ValidDate(a) && ValidDate(b)
    ensures MonthDayString(a) == MonthDayString(b) <==> a.month == b.month && a.day == b.day
  {
    SplitAtSeparator(Unpadded(a.month), Unpadded(a.day), Unpadded(b.month), Unpadded(b.day), '/');
    if Unpadded(a.month) == Unpadded(b.month) && Unpadded(a.day) == Unpadded(b.day) {
      UnpaddedInjective(a.month, b.month);
      UnpaddedInjective(a.day, b.day);
    }
  }

  /** The run's local date has the month and day of the day after `today`; the year is not compared. */
  predicate OnTomorrow(run: Date, today: Date)
    requires ValidDate(today)
  {
    run.month == NextDay(today).month && run.day == NextDay(today).day
  }

  /** The local reading of a timestamp that parses. */
  function LocalRun(nextRun: string, offset: UtcOffset): (local: DateTime)
    requires Parse(nextRun).Some?
    ensures ValidDateTime(local)
  {
    ToLocal(Parse(nextRun).value, offset)
  }

  /** The five values `time_magic` returns. */
  datatype Evaluation = Evaluation(
    currentHour: int,   // local hour of "now", 0..23
    weekday: string,    // weekday name of the run
    runTime: string,    // local time of the run, `%-H:%M%p`
    runDate: string,    // local date of the run, `%-m/%-d`
    tomorrow: bool      // the run's `m/d` is tomorrow's `m/d`
  )

  /** The exceptions `time_magic` lets escape. */
  datatype TimeError =
    | BadTimestamp   // `ValueError` from `strptime`
    | DateOverflow   // `OverflowError` leaving the years 1..9999

  /**
   * `time_magic(next_run)` with the clock reading `now` (already local) and
   * the zone passed in. The weekday is taken from the UTC reading, before
   * the move to local time.
   */
  function TimeMagic(nextRun: string, now: DateTime, offset: UtcOffset): (r: Result<Evaluation, TimeError>)
    requires Representable(now)
    ensures r == Failure(BadTimestamp) <==> Parse(nextRun).None?
    ensures r.Success? ==>
      var utc := Parse(nextRun).value;
      var local := ToLocal(utc, offset);
      && InRange(local.date)
      && 0 <= r.value.currentHour < 24
      && r.value.currentHour == now.hour
      && r.value.weekday == WeekdayName(utc.date)
      && r.value.runTime == ClockString(local)
      && r.value.runDate == MonthDayString(local.date)
      && Seconds(local) == Seconds(utc) + 60 * offset
      && (r.value.tomorrow <==> OnTomorrow(local.date, now.date))
    ensures r == Failure(DateOverflow) <==>
      Parse(nextRun).Some? &&
      (!InRange(ToLocal(Parse(nextRun).value, offset).date) || !InRange(NextDay(now.date)))
  {
    match Parse(nextRun)
    case None => Failure(BadTimestamp)
    case Some(utc) =>
      var weekday := WeekdayName(utc.date);
      var local := ToLocal(utc, offset);
      if !InRange(local.date) then Failure(DateOverflow)
      else
        var tomorrowDate := NextDay(now.date);
        if !InRange(tomorrowDate) then Failure(DateOverflow)
        else
          var runDate := MonthDayString(local.date);
          MonthDayStringsEqual(local.date, tomorrowDate);
          ToLocalSeconds(utc, offset);
          Success(Evaluation(now.hour, weekday, ClockString(local), runDate,
                             runDate == MonthDayString(tomorrowDate)))
  }
}

=== FILE: store.dfy ===
/**
 * The persisted record (`load_persistent_data` / `write_persistent_data`):
 * one JSON object with the keys `next_run` and `reminder`, or no file at all.
 */
module Store {
  import opened Wrappers

  /** The JSON values the record's fields can hold once loaded. */
  datatype Value = Null | Bool(b: bool) | Str(s: string) | Num(n: int)

  /** Python truthiness of a loaded value (`not v` is `!Truthy(v)`). */
  predicate Truthy(v: Value) {
    match v
    case Null => false
    case Bool(b) => b
    case Str(s) => s != ""
    case Num(n) => n != 0
  }

  /** The pair the program carries between invocations. */
  datatype Record = Record(nextRun: Value, reminder: Value)

  /** The state file: absent, or the JSON object it holds. */
  type StateFile = Option<map<string, Value>>

  const NextRunKey: string := "next_run"
  const ReminderKey: string := "reminder"

  /** Where the state file lives. */
  const StatePath: string := "/var/lib/misc/sprinklers.json"

  /** What loading found: no file (the caller bootstraps), or a record and the log lines written. */
  datatype Loaded = NotFound | Found(record: Record, logs: seq<string>)

  /** Reads the record; a missing key reads as `Null` and is logged. */
  function Load(file: StateFile): (l: Loaded)
    ensures l.NotFound? <==> file.None?
    ensures l.Found? ==>
      && (NextRunKey in file.value <==> "next_run not found in file" !in l.logs)
      && (ReminderKey in file.value <==> "reminder not found in file" !in l.logs)
  {
    match file
    case None => NotFound
    case Some(data) =>
      var (nextRun, logs1) :=
        if NextRunKey in data then (data[NextRunKey], []) else (Null, ["next_run not found in file"]);
      var (reminder, logs2) :=
        if ReminderKey in data then (data[ReminderKey], []) else (Null, ["reminder not found in file"]);
      Found(Record(nextRun, reminder), logs1 + logs2)
  }

  /** Overwrites the file wholesale with exactly the two keys. */
  function Save(rec: Record): (file: StateFile)
    ensures file.Some? && file.value.Keys == {NextRunKey, ReminderKey}
  {
    Some(map[NextRunKey := rec.nextRun, ReminderKey := rec.reminder])
  }

  /** Writing then loading returns the same pair, without complaint. */
  lemma LoadSave(rec: Record)
    ensures Load(Save(rec)) == Found(rec, [])
  {
  }

  /** A key missing from the file loads as `None`; a key present loads as written. */
  lemma LoadMissingKeys(data: map<string, Value>)
    ensures Load(Some(data)).record.nextRun == if NextRunKey in data then data[NextRunKey] else Null
    ensures Load(Some(data)).record.reminder == if ReminderKey in data then data[ReminderKey] else Null
  {
  }
}

=== FILE: timestamp.dfy ===
/**
 * Wall-clock date-times and the fixed-width `%Y-%m-%dT%H:%M:%SZ` layout in
 * which the controller's cloud API reports the next run.
 */
module Timestamp {
  import opened Wrappers
  import opened Calendar
  import opened Decimal

  /** A naive date-time; seconds run 0..59 as in Python's `datetime`. */
  datatype DateTime = DateTime(date: Date, hour: int, minute: int, second: int)

  predicate ValidDateTime(t: DateTime) {
    && ValidDate(t.date)
    && 0 <= t.hour < 24
    && 0 <= t.minute < 60
    && 0 <= t.second < 60
  }

  /** A date-time Python's `datetime` can represent. */
  predicate Representable(t: DateTime) {
    ValidDateTime(t) && InRange(t.date)
  }

  /** Length of `YYYY-MM-DDTHH:MM:SSZ`. */
  const TimestampLength: int := 20

  /** The canonical rendering `YYYY-MM-DDTHH:MM:SSZ` of a UTC date-time. */
  function Format(t: DateTime): (s: string)
    requires Representable(t)
    ensures |s| == TimestampLength
  {
    Padded(t.date.year, 4) + "-" + Padded(t.date.month, 2) + "-" + Padded(t.date.day, 2)
    + "T" + Padded(t.hour, 2) + ":" + Padded(t.minute, 2) + ":" + Padded(t.second, 2) + "Z"
  }

  /** Digits and punctuation stand where the layout puts them. */
  predicate HasLayout(s: string) {
    && |s| == TimestampLength
    && AllDigits(s[0..4]) && s[4] == '-'
    && AllDigits(s[5..7]) && s[7] == '-'
    && AllDigits(s[8..10]) && s[10] == 'T'
    && AllDigits(s[11..13]) && s[13] == ':'
    && AllDigits(s[14..16]) && s[16] == ':'
    && AllDigits(s[17..19]) && s[19] == 'Z'
  }

  /**
   * Reads a timestamp written in the canonical layout; `None` where
   * `strptime` or the `datetime` constructor would raise `ValueError`
   * (bad shape, year 0, month 13, 31 April, second 60, ...).
   */
  function Parse(s: string): (r: Option<DateTime>)
    ensures r.Some? ==> Representable(r.value)
    ensures r.Some? ==> HasLayout(s)
  {
    if !HasLayout(s) then None
    else
      var t := DateTime(Date(ValueOf(s[0..4]), ValueOf(s[5..7]), ValueOf(s[8..10])),
                        ValueOf(s[11..13]), ValueOf(s[14..16]), ValueOf(s[17..19]));
      if Representable(t) then Some(t) else None
  }

  /** Parsing undoes formatting. */
  lemma ParseFormat(t: DateTime)
    requires Representable(t)
    ensures Parse(Format(t)) == Some(t)
  {
    var s := Format(t);
    assert s[0..4] == Padded(t.date.year, 4);
    assert s[5..7] == Padded(t.date.month, 2);
    assert s[8..10] == Padded(t.date.day, 2);
    assert s[11..13] == Padded(t.hour, 2);
    assert s[14..16] == Padded(t.minute, 2);
    assert s[17..19] == Padded(t.second, 2);
    PaddedValue(t.date.year, 4);
    PaddedValue(t.date.month, 2);
    PaddedValue(t.date.day, 2);
    PaddedValue(t.hour, 2);
    PaddedValue(t.minute, 2);
    PaddedValue(t.second, 2);
  }

  /** A string in the layout is its six digit fields joined by the layout's punctuation. */
  lemma Reassemble(s: string)
    requires HasLayout(s)
    ensures s == s[0..4] + "-" + s[5..7] + "-" + s[8..10] + "T" + s[11..13] + ":" + s[14..16] + ":" + s[17..19] + "Z"
  {
    assert s[4..5] == "-" && s[7..8] == "-" && s[10..11] == "T";
    assert s[13..14] == ":" && s[16..17] == ":" && s[19..20] == "Z";
    assert s == s[0..4] + s[4..5] + s[5..7] + s[7..8] + s[8..10] + s[10..11] + s[11..13] + s[13..14]
                + s[14..16] + s[16..17] + s[17..19] + s[19..20];
  }

  /** Every timestamp the parser accepts is already in canonical form. */
  lemma FormatParse(s: string)
    requires Parse(s).Some?
    ensures Format(Parse(s).value) == s
  {
    PaddedOfValue(s[0..4]);
    PaddedOfValue(s[5..7]);
    PaddedOfValue(s[8..10]);
    PaddedOfValue(s[11..13]);
    PaddedOfValue(s[14..16]);
    PaddedOfValue(s[17..19]);
    Reassemble(s);
  }
}

=== FILE: wrappers.dfy ===
/** Failure-carrying datatypes shared by the rest of the model. */
module Wrappers {

  /** A value that may be absent (Python's `None`). */
  datatype Option<+T> = None | Some(value: T)

  /** Either a value or the error that a Python exception would carry. */
  datatype Result<+R, +E> = Success(value: R) | Failure(error: E)
}
